=== FILE: README.md ===
# Modbus / PLC address converter — Dafny model

The converter translates between a PLC's memory notation — a memory-type tag
(M markers, V registers, X inputs, Y outputs, T timers, C counters) followed by
an address, such as `V400` — and Modbus notation: a register-class prefix
(`0x` coils, `1x` discrete inputs, `4x` holding registers), a space, and a
register number, such as `4x 912`.

The conversion logic lives in the button handlers of `MainWindow`. This model
lifts it into pure functions over an immutable address table:

- `AddressTable` (address_table.dfy): the two lookup tables, one from tag to
  base offset and one from tag to prefix, plus the hard-coded default table.
  They are kept as two maps, as in the window. That is why a tag with an offset
  but no prefix prints the empty prefix, exactly as the `TryGetValue`
  fallback does.
- `Converter` (converter.dfy): PLC→Modbus (`PlcToModbus`, `ToModbus`) and
  Modbus→PLC (`ParseModbus`, `Resolve`, `ModbusToPlc`).
  - Each failure the window reports in a message box is an `Error` kind,
    apart from the null-selection check.
  - The hand-ordered `if` chain of the Modbus→PLC handler is proved equal to
    an independent "first fitting candidate" reading (`Candidates`,
    `FirstFit`).
- `Text` (text.dfy): the .NET primitives the handlers use. `string.Trim()`
  strips the full Unicode White_Space set. `string.Split(' ')` keeps empty
  pieces. `int.TryParse` accepts surrounding number white space, an optional
  sign, ASCII digits and the Int32 range. String interpolation prints an
  `int` in decimal, with `-` as the negative sign.
- `Wrappers` (wrappers.dfy): the `Option` type shared by `Text` and
  `Converter`.
- `BoundedInt` (bounded_int.dfy): C# `int` and its unchecked wrap-around,
  which both `address + offset` and `value - offset` go through.
- `DefaultTable` (default_table.dfy): what the conversions do with the
  hard-coded table. It covers which tag each Modbus range resolves to and
  where the round trip holds. It also shows that timers and counters can never
  be produced.
- `Scenarios` (scenarios.dfy): worked conversions, including every error path.

The table is a parameter of every conversion. The Modbus→PLC dispatch looks up
M, V, X, Y, T and C, and M's prefix, without checking that they exist. Those
lookups would throw, so `HasCoreTags` is a precondition there. PLC→Modbus uses
`TryGetValue` and needs no precondition.

Three facts about the code shape the model:

- Only one candidate has its prefix checked: M in the `4x` branch (line 139).
  The `0x`, `1x` and `4x` branches try M/Y, X and V/T/C whatever prefixes the
  table gives them. `Candidates` models this.
- The tables are fixed initialisers (lines 11-29), and nothing loads them.
- Tokens are split on the single character `' '` (line 83). So `4x  912` (two
  spaces) is malformed, and a tab does not separate tokens.

## Model

| member | source | states |
|---|---|---|
| AddressTable.DefaultWellFormed | modBusCoverter/MainWindow.xaml.cs:11-29 | the hard-coded table holds every tag the dispatch looks up, and all its base offsets are non-negative |
| AddressTable.DefaultLayout | modBusCoverter/MainWindow.xaml.cs:11-29 | the hard-coded table puts M and Y under `0x`, only X under `1x`, and V, T, C under `4x`; X starts at 0, Y below M, and V below T below C |
| AddressTable.PrefixOf | modBusCoverter/MainWindow.xaml.cs:64 | the prefix printed for a tag is its table entry when there is one, and otherwise the empty string, never anything else |
| AddressTable.DefaultKeys | modBusCoverter/MainWindow.xaml.cs:11-29 | both hard-coded maps have exactly the keys M, V, X, Y, T, C |
| BoundedInt.Wrap32 | modBusCoverter/MainWindow.xaml.cs:63 | unchecked Int32 arithmetic: the result is in range, agrees with the exact value modulo 2^32, and equals it when it fits |
| Text.Trim | modBusCoverter/MainWindow.xaml.cs:75 | the trimmed text is a slice of the input, everything removed is white space, its ends are not white, and it is empty exactly when the input is all white space |
| Text.TrimUntrimmed | modBusCoverter/MainWindow.xaml.cs:75 | trimming leaves text alone when neither end is white |
| Text.LeadCount | modBusCoverter/MainWindow.xaml.cs:75 | counts exactly the maximal run of leading white characters |
| Text.TrailCount | modBusCoverter/MainWindow.xaml.cs:75 | counts exactly the maximal run of trailing white characters |
| Text.IndexOf | modBusCoverter/MainWindow.xaml.cs:83 | finds the first occurrence of the separator |
| Text.Split | modBusCoverter/MainWindow.xaml.cs:83 | there is at least one piece, no piece contains the separator, and joining the pieces with the separator gives back the input |
| Text.SplitJoin | modBusCoverter/MainWindow.xaml.cs:83 | splitting inverts joining separator-free pieces, so the pieces are uniquely determined |
| Text.SplitCount | modBusCoverter/MainWindow.xaml.cs:83-84 | the number of pieces is one more than the number of spaces, so "exactly two parts" means "exactly one space" |
| Text.DigitsOf | modBusCoverter/MainWindow.xaml.cs:65 | the decimal spelling is non-empty, all digits, has no leading zero, and denotes the number |
| Text.IntToString | modBusCoverter/MainWindow.xaml.cs:65 | printed integers start with a minus sign exactly when negative, and consist of digits otherwise |
| Text.ParseSigned | modBusCoverter/MainWindow.xaml.cs:55 | accepted text is an optional sign followed by digits, and the result is the value of those digits, negated after a minus sign |
| Text.ParseSignedSignDigits | modBusCoverter/MainWindow.xaml.cs:55 | every optional sign followed by digits is accepted, leading zeros and `+` included, with the value of the digits, negated after `-` |
| Text.ParseInt | modBusCoverter/MainWindow.xaml.cs:55 | accepted text contains only digits, signs and number white space |
| Text.SignedCharacters | modBusCoverter/MainWindow.xaml.cs:55 | text whose trimmed core is a signed number consists only of digits, signs and number white space |
| Text.ParseSignedOfIntToString | modBusCoverter/MainWindow.xaml.cs:91 | the signed-number reader reads back every printed integer |
| Text.ParseIntOfIntToString | modBusCoverter/MainWindow.xaml.cs:91 | parsing reads back every printed Int32 |
| Converter.ToModbus | modBusCoverter/MainWindow.xaml.cs:61-70 | succeeds exactly for tags in the offset table, with the tag's prefix (empty if it has none) and the address shifted by the tag's base offset modulo 2^32; fails with UnknownMemoryType otherwise |
| Converter.PlcToModbus | modBusCoverter/MainWindow.xaml.cs:53-70 | a non-integer address fails with InvalidAddress whatever the tag or table; otherwise the parsed address is converted |
| Converter.ToModbusLocal | modBusCoverter/MainWindow.xaml.cs:61-65 | only the requested tag's offset and prefix influence the result |
| Converter.FormatModbusReadsBack | modBusCoverter/MainWindow.xaml.cs:65 | printed Modbus text is the prefix, one space, and text that parses back to the value |
| Converter.FormatPlc | modBusCoverter/MainWindow.xaml.cs:105-142 | printed PLC text is the tag followed by text that parses back to the offset, as in each `$"M{plcAddress}"`-style result |
| Converter.ParseModbus | modBusCoverter/MainWindow.xaml.cs:75-95 | blank text gives EmptyInput, a space count other than one gives MalformedInput, a non-integer second token gives InvalidModbusNumber; success means the trimmed text is the prefix, one space, and an integer literal |
| Converter.SplitInTwo | modBusCoverter/MainWindow.xaml.cs:83-90 | text that splits into exactly two pieces is the first piece, one space, and the second piece, and the first piece has no space |
| Converter.Candidates | modBusCoverter/MainWindow.xaml.cs:99-144 | the tags each prefix tries are core tags; M is tried exactly for `0x` and, when M's prefix is `4x`, for `4x`; unknown prefixes try none |
| Converter.FirstMatch | modBusCoverter/MainWindow.xaml.cs:99-144 | the first-match reading fails exactly when no candidate's base offset is at most the value; otherwise it picks a fitting candidate, measured from its base offset |
| Converter.Resolve | modBusCoverter/MainWindow.xaml.cs:99-144 | a dispatch result is a candidate tag of the prefix whose base offset is at most the value, and its offset is the value minus that base, modulo 2^32 |
| Converter.FirstFit | modBusCoverter/MainWindow.xaml.cs:99-144 | the first candidate whose base offset is at most the value; every earlier candidate's base offset exceeds it |
| Converter.ResolveIsFirstMatch | modBusCoverter/MainWindow.xaml.cs:99-144 | the hand-written branch chain equals first-match over the candidate list: M then Y for `0x`, X for `1x`, V, T, C and then M only when M's prefix is `4x` for `4x`, nothing otherwise |
| Converter.ResolveSpec | modBusCoverter/MainWindow.xaml.cs:99-154 | dispatch fails exactly when no candidate's base offset is at most the value; a result is a fitting candidate preceded only by non-fitting ones; with non-negative offsets the PLC offset is non-negative and adds back to the value |
| Converter.UnknownPrefixFails | modBusCoverter/MainWindow.xaml.cs:99-154 | a prefix other than `0x`, `1x`, `4x` never converts |
| Converter.ModbusToPlc | modBusCoverter/MainWindow.xaml.cs:73-154 | malformed text is refused with its parse error before any lookup; otherwise the dispatch result is returned, or NoMatchingMemoryType carrying the trimmed text and the prefix |
| Converter.ParseFormatModbus | modBusCoverter/MainWindow.xaml.cs:82-95 | printed Modbus text with a white-free prefix is already trimmed and reads back as the same address |
| Converter.ModbusToPlcOfFormat | modBusCoverter/MainWindow.xaml.cs:146-153 | converting printed Modbus text with a non-empty, white-free prefix yields the dispatch result, or an error naming that text and its prefix |
| DefaultTable.ResolveCoils | modBusCoverter/MainWindow.xaml.cs:99-112 | `0x`: values from 3072 give M(value-3072), even though they are also at or above Y's base; 1536..3071 give Y(value-1536); lower values fail |
| DefaultTable.ResolveInputs | modBusCoverter/MainWindow.xaml.cs:113-120 | `1x`: non-negative values give X(value), negative ones fail |
| DefaultTable.ResolveRegisters | modBusCoverter/MainWindow.xaml.cs:121-143 | `4x`: every value from 512 gives V(value-512); lower values fail, because every `4x` candidate's base offset exceeds them (M's 3072 as well, even if its prefix were `4x`) |
| DefaultTable.MarkerPrefixIrrelevant | modBusCoverter/MainWindow.xaml.cs:121-143 | under the default offsets, giving M the prefix `4x` puts M last among the `4x` candidates but changes no `4x` result, because V already takes every value from 512 |
| DefaultTable.NoTimerOrCounter | modBusCoverter/MainWindow.xaml.cs:121-143 | no Modbus text ever converts to a T or C address |
| DefaultTable.PlainPrefix | modBusCoverter/MainWindow.xaml.cs:21-29 | every prefix of the hard-coded table is non-empty and free of white space |
| DefaultTable.ToModbusThenResolve | modBusCoverter/MainWindow.xaml.cs:61-144 | for M, X, V at non-negative non-overflowing offsets and Y below 1536, the Modbus address resolves back to the PLC address |
| DefaultTable.ResolveThenToModbusOnly | modBusCoverter/MainWindow.xaml.cs:61-144 | conversely, an address that comes back from its Modbus address lies in those ranges: negative or overflowing offsets, Y from 1536, T and C never do |
| DefaultTable.OutputOverlapsMarker | modBusCoverter/MainWindow.xaml.cs:61-112 | Y1536 prints as `0x 3072`, which resolves to M0, where the Y and M ranges meet |
| DefaultTable.RoundTrip | modBusCoverter/MainWindow.xaml.cs:61-144 | printing such a PLC address as Modbus text and converting the text back returns the same tag and offset |
| DefaultTable.TimerCounterRoundTripFails | modBusCoverter/MainWindow.xaml.cs:121-138 | T and C addresses never survive the round trip |
| DefaultTable.ResolveThenToModbus | modBusCoverter/MainWindow.xaml.cs:99-144 | whatever a Modbus address resolves to converts back to that Modbus address |
| DefaultTable.ReverseRoundTrip | modBusCoverter/MainWindow.xaml.cs:61-154 | whenever Modbus text converts, printing the PLC address and converting it back gives the Modbus address that was read |
| Scenarios.RegisterToModbus | modBusCoverter/MainWindow.xaml.cs:61-65 | V with address text `400` is `4x 912` |
| Scenarios.RegisterFromModbus | modBusCoverter/MainWindow.xaml.cs:121-128 | `4x 912` is V400 |
| Scenarios.RegisterPrints | modBusCoverter/MainWindow.xaml.cs:127 | V400 prints as `V400` |
| Scenarios.TimerRangeGoesToRegisters | modBusCoverter/MainWindow.xaml.cs:124-133 | `4x 15500` is V14988, not a timer |
| Scenarios.CoilRangeGoesToMarkers | modBusCoverter/MainWindow.xaml.cs:99-106 | `0x 3500` is M428 |
| Scenarios.UnknownPrefixText | modBusCoverter/MainWindow.xaml.cs:146-153 | `9x 10` fails with NoMatchingMemoryType naming `9x 10` and `9x` |
| Scenarios.LowRegisterFails | modBusCoverter/MainWindow.xaml.cs:121-143 | `4x 100` fails |
| Scenarios.UnknownTag | modBusCoverter/MainWindow.xaml.cs:67-70 | tag Z fails with UnknownMemoryType |
| Scenarios.NegativeAddress | modBusCoverter/MainWindow.xaml.cs:55-65 | X with address `-5` is accepted as `1x -5` |
| Scenarios.NonNumericAddress | modBusCoverter/MainWindow.xaml.cs:55-59 | address text `12a` fails with InvalidAddress even for an unknown tag |
| Scenarios.MarkerOverflowWraps | modBusCoverter/MainWindow.xaml.cs:63 | M at the largest Int32 wraps to Modbus value -2147480577 |
| Scenarios.BlankInput | modBusCoverter/MainWindow.xaml.cs:75-80 | all-white text fails with EmptyInput |
| Scenarios.DoubleSpace | modBusCoverter/MainWindow.xaml.cs:83-88 | `4x  912` fails with MalformedInput |
| Scenarios.NonNumericRegister | modBusCoverter/MainWindow.xaml.cs:90-95 | `4x 9a` fails with InvalidModbusNumber |

## Left out

- Window plumbing is not modelled: `InitializeComponent`, message boxes and
  result text boxes. The
  message texts are modelled only as distinct `Error` kinds.
- The null-selection check of the PLC→Modbus handler (lines 47-51) is left
  out. The combo box only offers keys of the offset table, so the model takes
  the selected tag as a string.
- Parsing and formatting are modelled for a culture whose negative sign is
  `-`. `int.TryParse` and the string interpolation at lines 65 and 105-142 use
  the current culture. Culture-specific negative signs and trailing NUL
  characters are not modelled.
- The C# handler signals failure with an empty result string (line 146). The
  model uses `Option`/`Result`. Every successful branch produces a string that
  starts with a tag letter, so the two agree.
- Missing core tags would raise `KeyNotFoundException` in the Modbus→PLC
  dispatch. This is a precondition (`HasCoreTags`) rather than a modelled
  exception. The dispatch reads only the entries its branch reaches. The
  precondition asks for all of them.
- The tag listing exists only as UI population: `Window_Loaded` (lines 36-43)
  adds the keys of the offset table to the combo box. It is left out with the
  rest of the window plumbing. Nothing loads the tables from a configuration.
- Int32 overflow is modelled as wrap-around, not excluded by preconditions.
  The round-trip lemmas therefore require `offset + base <= 2147483647`.
- Text.ParseInt: its contract says only which characters an accepted text may
  contain. The full grammar is in its body. The read-back of printed values
  is the separate lemma `Text.ParseIntOfIntToString`.
- Text.IntToString: its contract gives the shape of the printed text, not its
  value. The value is pinned down by `Text.DigitsOf` and
  `Text.ParseIntOfIntToString`.

=== FILE: address_table.dfy ===
/**
 The address table of the converter window: for each PLC memory-type tag, the
 base offset of its range in the Modbus address space and the Modbus
 register-class prefix it lives under.
 */
module AddressTable {
  import opened BoundedInt

  /** The two lookup tables, kept separate as in the window: tag to base
      offset, and tag to register-class prefix. */
  datatype Table = Table(offsets: map<string, Int32>, prefixes: map<string, string>)

  /** The tags the Modbus-to-PLC dispatch looks up without checking that they
      are present. */
  predicate HasCoreTags(t: Table) {
    && "M" in t.offsets && "V" in t.offsets && "X" in t.offsets
    && "Y" in t.offsets && "T" in t.offsets && "C" in t.offsets
    && "M" in t.prefixes
  }

  predicate NonNegativeOffsets(t: Table) {
    forall tag :: tag in t.offsets ==> t.offsets[tag] >= 0
  }

  /** The prefix the PLC-to-Modbus direction prints for `tag`: the table's
      entry, or the empty string when the prefix table has none. */
  function PrefixOf(t: Table, tag: string): (p: string)
    ensures tag in t.prefixes ==> p == t.prefixes[tag]
    ensures tag !in t.prefixes ==> p == ""
  {
    if tag in t.prefixes then t.prefixes[tag] else ""
  }

  /** The hard-coded table: marker relays M, registers V, inputs X, outputs Y,
      timers T and counters C. */
  const Default: Table := Table(
    map["M" := 3072, "V" := 512, "X" := 0, "Y" := 1536, "T" := 15360, "C" := 16384],
    map["M" := "0x", "V" := "4x", "X" := "1x", "Y" := "0x", "T" := "4x", "C" := "4x"])

  /** The default table holds every tag the dispatch looks up, with
      non-negative offsets. */
  lemma DefaultWellFormed()
    ensures HasCoreTags(Default) && NonNegativeOffsets(Default)
  {
  }

  /** How the hard-coded table lays out the Modbus space: M and Y are coils,
      X is the only discrete input, V, T and C are holding registers, and
      within each class the base offsets rise in the order Y < M and
      V < T < C. */
  lemma DefaultLayout()
    ensures forall tag :: tag in Default.prefixes ==>
              (Default.prefixes[tag] == "0x" <==> tag == "M" || tag == "Y")
              && (Default.prefixes[tag] == "1x" <==> tag == "X")
              && (Default.prefixes[tag] == "4x" <==> tag == "V" || tag == "T" || tag == "C")
    ensures Default.offsets["X"] == 0
    ensures Default.offsets["Y"] < Default.offsets["M"]
    ensures Default.offsets["V"] < Default.offsets["T"] < Default.offsets["C"]
  {
  }

  /** Both maps of the default table name the same six tags. */
  lemma DefaultKeys()
    ensures Default.offsets.Keys == Default.prefixes.Keys == {"M", "V", "X", "Y", "T", "C"}
  {
  }
}

=== FILE: bounded_int.dfy ===
/**
 The 32-bit signed integers of the converter (C# `int`) and the wrap-around
 that unchecked C# arithmetic applies to them.
 */
module BoundedInt {

  const MinInt32: int := -0x8000_0000
  const MaxInt32: int := 0x7FFF_FFFF
  const Modulus32: int := 0x1_0000_0000

  predicate InInt32(x: int) {
    MinInt32 <= x <= MaxInt32
  }

  type Int32 = x: int | -0x8000_0000 <= x <= 0x7FFF_FFFF

  /** The Int32 that unchecked C# arithmetic yields for the mathematical value `x`:
      the unique value in range that agrees with `x` modulo 2^32. */
  function Wrap32(x: int): (r: Int32)
    ensures (r - x) % Modulus32 == 0
    ensures InInt32(x) ==> r == x
  {
    (x - MinInt32) % Modulus32 + MinInt32
  }
}

=== FILE: converter.dfy ===
/**
 The two conversions of the converter window as pure functions over an
 address table: PLC address to Modbus address, and Modbus address text back
 to a PLC address.
 */
module Converter {
  import opened BoundedInt
  import opened Wrappers
  import opened Text
  import opened AddressTable

  /** The failures the window reports, one kind per message box. */
  datatype Error =
    | InvalidAddress                    // PLC address text is not an integer
    | UnknownMemoryType                 // tag missing from the offset table
    | EmptyInput                        // Modbus text is blank
    | MalformedInput                    // Modbus text is not two space-separated tokens
    | InvalidModbusNumber               // second Modbus token is not an integer
    | NoMatchingMemoryType(input: string, prefix: string)   // no candidate tag fits

  datatype Result<+T> = Ok(value: T) | Err(error: Error)

  /** A Modbus address such as `4x 912`. */
  datatype ModbusAddress = ModbusAddress(prefix: string, value: Int32)

  /** A PLC address such as `V400`. */
  datatype PlcAddress = PlcAddress(tag: string, offset: Int32)

  /** The text shown for a Modbus address: prefix, one space, value. */
  function FormatModbus(m: ModbusAddress): string {
    m.prefix + " " + IntToString(m.value)
  }

  /** Printed Modbus text is the prefix, one space, and text that reads back
      as the value. */
  lemma FormatModbusReadsBack(m: ModbusAddress)
    ensures var s := FormatModbus(m);
            && |m.prefix| < |s| && s[..|m.prefix|] == m.prefix && s[|m.prefix|] == ' '
            && ParseInt(s[|m.prefix| + 1..]) == Some(m.value)
  {
    var s := FormatModbus(m);
    assert s[|m.prefix| + 1..] == IntToString(m.value);
    ParseIntOfIntToString(m.value);
  }

  /** The text shown for a PLC address: the tag immediately followed by text
      that reads back as the offset. */
  function FormatPlc(a: PlcAddress): (s: string)
    ensures |a.tag| < |s| && s[..|a.tag|] == a.tag
    ensures ParseInt(s[|a.tag|..]) == Some(a.offset)
  {
    var s := a.tag + IntToString(a.offset);
    assert s[|a.tag|..] == IntToString(a.offset);
    ParseIntOfIntToString(a.offset);
    s
  }

  // ---------------------------------------------------------------- PLC -> Modbus

  /** Converts PLC address `address` of memory type `tag`: the tag's prefix,
      and the address shifted by the tag's base offset (with Int32
      wrap-around). Only the tag's own entries matter. */
  function ToModbus(t: Table, tag: string, address: Int32): (r: Result<ModbusAddress>)
    ensures r.Ok? <==> tag in t.offsets
    ensures r.Err? ==> r.error == UnknownMemoryType
    ensures r.Ok? ==> r.value.prefix == PrefixOf(t, tag)
    ensures r.Ok? ==> (r.value.value - (address + t.offsets[tag])) % Modulus32 == 0
    ensures r.Ok? && InInt32(address + t.offsets[tag]) ==> r.value.value == address + t.offsets[tag]
  {
    if tag in t.offsets then
      Ok(ModbusAddress(PrefixOf(t, tag), Wrap32(address + t.offsets[tag])))
    else
      Err(UnknownMemoryType)
  }

  /** The PLC-to-Modbus button: the address text is parsed first, and a text
      that is not an Int32 is refused whatever the tag; then the tag is
      looked up. Negative addresses are accepted. */
  function PlcToModbus(t: Table, tag: string, addressText: string): (r: Result<ModbusAddress>)
    ensures ParseInt(addressText).None? ==> r == Err(InvalidAddress)
    ensures ParseInt(addressText).Some? ==> r == ToModbus(t, tag, ParseInt(addressText).value)
  {
    match ParseInt(addressText)
    case None => Err(InvalidAddress)
    case Some(n) => ToModbus(t, tag, n)
  }

  /** Only the entries of the requested tag influence the conversion. */
  lemma ToModbusLocal(t1: Table, t2: Table, tag: string, address: Int32)
    requires tag in t1.offsets <==> tag in t2.offsets
    requires tag in t1.offsets ==> t1.offsets[tag] == t2.offsets[tag]
    requires PrefixOf(t1, tag) == PrefixOf(t2, tag)
    ensures ToModbus(t1, tag, address) == ToModbus(t2, tag, address)
  {
  }

  // ---------------------------------------------------------------- Modbus -> PLC

  /** Reads the Modbus text: trimmed, it must be non-blank, contain exactly
      one space, and have an Int32 after that space. No table is consulted. */
  function ParseModbus(s: string): (r: Result<ModbusAddress>)
    ensures r == Err(EmptyInput) <==> Trim(s, WhiteSpace) == []
    ensures r == Err(MalformedInput) <==>
              Trim(s, WhiteSpace) != [] && multiset(Trim(s, WhiteSpace))[' '] != 1
    ensures r == Err(InvalidModbusNumber) <==>
              var input := Trim(s, WhiteSpace);
              input != [] && |Split(input, ' ')| == 2 && ParseInt(Split(input, ' ')[1]).None?
    ensures r.Ok? || r == Err(EmptyInput) || r == Err(MalformedInput) || r == Err(InvalidModbusNumber)
    ensures r.Ok? ==> var input := Trim(s, WhiteSpace); var p := r.value.prefix;
              && ' ' !in p && |p| < |input| && input[..|p|] == p && input[|p|] == ' '
              && ParseInt(input[|p| + 1..]) == Some(r.value.value)
  {
    var input := Trim(s, WhiteSpace);
    if input == [] then Err(EmptyInput)
    else
      var parts := Split(input, ' ');
      SplitCount(input, ' ');
      if |parts| != 2 then Err(MalformedInput)
      else
        SplitInTwo(input, parts);
        match ParseInt(parts[1])
        case None => Err(InvalidModbusNumber)
        case Some(n) => Ok(ModbusAddress(parts[0], n))
  }

  /** Text split into exactly two pieces is the first piece, one space, and
      the second piece. */
  lemma SplitInTwo(input: string, parts: seq<string>)
    requires parts == Split(input, ' ') && |parts| == 2
    ensures ' ' !in parts[0] && |parts[0]| < |input|
    ensures input[..|parts[0]|] == parts[0] && input[|parts[0]|] == ' '
    ensures input[|parts[0]| + 1..] == parts[1]
  {
    assert parts[1..] == [parts[1]];
    assert input == parts[0] + [' '] + parts[1];
  }

  /** The tags tried for a register-class prefix, in priority order: M before
      Y for `0x`; X alone for `1x`; V, T, C and, only when M's prefix is
      `4x`, M for `4x`; none for any other prefix. */
  function Candidates(t: Table, prefix: string): (tags: seq<string>)
    requires "M" in t.prefixes
    ensures forall k :: 0 <= k < |tags| ==> tags[k] in {"M", "V", "X", "Y", "T", "C"}
    ensures "M" in tags <==> prefix == "0x" || (prefix == "4x" && t.prefixes["M"] == "4x")
    ensures tags == [] <==> prefix != "0x" && prefix != "1x" && prefix != "4x"
  {
    if prefix == "0x" then ["M", "Y"]
    else if prefix == "1x" then ["X"]
    else if prefix == "4x" then ["V", "T", "C"] + (if t.prefixes["M"] == "4x" then ["M"] else [])
    else []
  }

  /** The position of the first tag in `tags` whose base offset is at most
      `value`, or `|tags|` if there is none. */
  function FirstFit(t: Table, tags: seq<string>, value: int): (i: nat)
    requires forall k :: 0 <= k < |tags| ==> tags[k] in t.offsets
    ensures i <= |tags|
    ensures forall j :: 0 <= j < i ==> t.offsets[tags[j]] > value
    ensures i < |tags| ==> t.offsets[tags[i]] <= value
  {
    if |tags| == 0 then 0
    else if t.offsets[tags[0]] <= value then 0
    else
      var i := FirstFit(t, tags[1..], value);
      assert forall j :: 1 <= j < i + 1 ==> tags[j] == tags[1..][j - 1];
      i + 1
  }

  /** First match wins: the first candidate whose base offset does not exceed
      the value, with the value measured from that base offset. */
  function FirstMatch(t: Table, tags: seq<string>, value: Int32): (r: Option<PlcAddress>)
    requires forall k :: 0 <= k < |tags| ==> tags[k] in t.offsets
    ensures r.None? <==> forall k :: 0 <= k < |tags| ==> t.offsets[tags[k]] > value
    ensures r.Some? ==> r.value.tag in tags && t.offsets[r.value.tag] <= value
    ensures r.Some? ==> (r.value.offset - (value - t.offsets[r.value.tag])) % Modulus32 == 0
  {
    var i := FirstFit(t, tags, value);
    if i < |tags| then Some(PlcAddress(tags[i], Wrap32(value - t.offsets[tags[i]])))
    else None
  }

  /** The dispatch of the Modbus-to-PLC button, branch by branch. */
  function Resolve(t: Table, prefix: string, value: Int32): (r: Option<PlcAddress>)
    requires HasCoreTags(t)
    ensures r.Some? ==> r.value.tag in Candidates(t, prefix) && t.offsets[r.value.tag] <= value
    ensures r.Some? ==> (r.value.offset - (value - t.offsets[r.value.tag])) % Modulus32 == 0
  {
    if prefix == "0x" then
      if value >= t.offsets["M"] then Some(PlcAddress("M", Wrap32(value - t.offsets["M"])))
      else if value >= t.offsets["Y"] then Some(PlcAddress("Y", Wrap32(value - t.offsets["Y"])))
      else None
    else if prefix == "1x" then
      if value >= t.offsets["X"] then Some(PlcAddress("X", Wrap32(value - t.offsets["X"])))
      else None
    else if prefix == "4x" then
      if value >= t.offsets["V"] then Some(PlcAddress("V", Wrap32(value - t.offsets["V"])))
      else if value >= t.offsets["T"] then Some(PlcAddress("T", Wrap32(value - t.offsets["T"])))
      else if value >= t.offsets["C"] then Some(PlcAddress("C", Wrap32(value - t.offsets["C"])))
      else if value >= t.offsets["M"] && t.prefixes["M"] == "4x" then
        Some(PlcAddress("M", Wrap32(value - t.offsets["M"])))
      else None
    else None
  }

  /** The branch-by-branch dispatch agrees with the candidate-list reading:
      the first candidate for the prefix whose base offset does not exceed
      the value wins. */
  lemma ResolveIsFirstMatch(t: Table, prefix: string, value: Int32)
    requires HasCoreTags(t)
    ensures Resolve(t, prefix, value) == FirstMatch(t, Candidates(t, prefix), value)
  {
    var tags := Candidates(t, prefix);
    var i := FirstFit(t, tags, value);
    if prefix == "4x" {
      assert tags[0] == "V" && tags[1] == "T" && tags[2] == "C";
      assert |tags| > 3 ==> tags[3] == "M";
      if value >= t.offsets["V"] {
        assert i == 0;
      } else if value >= t.offsets["T"] {
        assert i == 1;
      } else if value >= t.offsets["C"] {
        assert i == 2;
      } else {
        assert i >= 3;
      }
    }
  }

  /** What a successful dispatch promises: a candidate of the prefix, whose
      base offset is at most the value, preceded only by candidates whose base
      offsets exceed it; failure means no candidate fits. With non-negative
      base offsets the PLC offset is non-negative and adds back to the value. */
  lemma ResolveSpec(t: Table, prefix: string, value: Int32)
    requires HasCoreTags(t)
    ensures var r := Resolve(t, prefix, value); var tags := Candidates(t, prefix);
            && (r.None? <==> forall j :: 0 <= j < |tags| ==> t.offsets[tags[j]] > value)
            && (r.Some? ==> exists i :: 0 <= i < |tags| && tags[i] == r.value.tag
                              && t.offsets[tags[i]] <= value
                              && (forall j :: 0 <= j < i ==> t.offsets[tags[j]] > value))
            && (r.Some? && NonNegativeOffsets(t) ==>
                  r.value.offset >= 0 && r.value.offset + t.offsets[r.value.tag] == value)
  {
    var tags := Candidates(t, prefix);
    var i := FirstFit(t, tags, value);
    ResolveIsFirstMatch(t, prefix, value);
    if i < |tags| {
      var off := t.offsets[tags[i]];
      assert Resolve(t, prefix, value) == Some(PlcAddress(tags[i], Wrap32(value - off)));
      if NonNegativeOffsets(t) {
        assert 0 <= off <= value && InInt32(value);
        assert InInt32(value - off);
      }
    }
  }

  /** A prefix other than `0x`, `1x` and `4x` never converts. */
  lemma UnknownPrefixFails(t: Table, prefix: string, value: Int32)
    requires HasCoreTags(t)
    requires prefix != "0x" && prefix != "1x" && prefix != "4x"
    ensures Resolve(t, prefix, value).None?
  {
  }

  /** The Modbus-to-PLC button: malformed text is refused before any lookup;
      a well-formed address converts as `Resolve` dispatches it, and when no
      candidate fits the error carries the trimmed text and the prefix. */
  function ModbusToPlc(t: Table, s: string): (r: Result<PlcAddress>)
    requires HasCoreTags(t)
    ensures ParseModbus(s).Err? ==> r == Err(ParseModbus(s).error)
    ensures ParseModbus(s).Ok? ==> var m := ParseModbus(s).value;
              && (Resolve(t, m.prefix, m.value).Some? ==> r == Ok(Resolve(t, m.prefix, m.value).value))
              && (Resolve(t, m.prefix, m.value).None? ==>
                    r == Err(NoMatchingMemoryType(Trim(s, WhiteSpace), m.prefix)))
  {
    match ParseModbus(s)
    case Err(e) => Err(e)
    case Ok(m) =>
      match Resolve(t, m.prefix, m.value)
      case Some(a) => Ok(a)
      case None => Err(NoMatchingMemoryType(Trim(s, WhiteSpace), m.prefix))
  }

  /** Converting printed Modbus text is dispatching the printed address;
      a failure reports the printed text itself. */
  lemma ModbusToPlcOfFormat(t: Table, m: ModbusAddress)
    requires HasCoreTags(t)
    requires |m.prefix| > 0 && forall i :: 0 <= i < |m.prefix| ==> m.prefix[i] !in WhiteSpace
    ensures Resolve(t, m.prefix, m.value).Some? ==>
              ModbusToPlc(t, FormatModbus(m)) == Ok(Resolve(t, m.prefix, m.value).value)
    ensures Resolve(t, m.prefix, m.value).None? ==>
              ModbusToPlc(t, FormatModbus(m)) == Err(NoMatchingMemoryType(FormatModbus(m), m.prefix))
  {
    ParseFormatModbus(m);
    var s := FormatModbus(m);
    var r := ModbusToPlc(t, s);
    assert ParseModbus(s) == Ok(m);
    assert Trim(s, WhiteSpace) == s;
  }

  /** Reading back printed Modbus text recovers the address whenever the
      prefix is a single token without white space. */
  lemma ParseFormatModbus(m: ModbusAddress)
    requires |m.prefix| > 0 && forall i :: 0 <= i < |m.prefix| ==> m.prefix[i] !in WhiteSpace
    ensures ParseModbus(FormatModbus(m)) == Ok(m)
    ensures Trim(FormatModbus(m), WhiteSpace) == FormatModbus(m)
  {
    var digits := IntToString(m.value);
    var s := FormatModbus(m);
    assert s == m.prefix + [' '] + digits;
    assert s[0] == m.prefix[0];
    assert s[|s| - 1] == digits[|digits| - 1];
    assert IsDigit(digits[|digits| - 1]) by {
      if |digits| == 1 { assert m.value >= 0; }
    }
    TrimUntrimmed(s, WhiteSpace);
    assert ' ' !in m.prefix by { assert ' ' in WhiteSpace; }
    assert ' ' !in digits by {
      forall i | 0 <= i < |digits| ensures digits[i] != ' ' {
        if i > 0 { assert IsDigit(digits[i]); }
      }
    }
    SplitJoin([m.prefix, digits], ' ');
    ParseIntOfIntToString(m.value);
  }
}

=== FILE: default_table.dfy ===
/**
 What the conversions do with the hard-coded table: which tag each Modbus
 address resolves to, where the round trip holds, and where the priority
 order makes timers and counters unreachable.
 */
module DefaultTable {
  import opened BoundedInt
  import opened Wrappers
  import opened Text
  import opened AddressTable
  import opened Converter

  /** Prefix `0x`: M from 3072 up, although those values are also at or
      above Y's base; Y from 1536 to 3071; nothing below. */
  lemma ResolveCoils(value: Int32)
    ensures value >= 3072 ==> Resolve(Default, "0x", value) == Some(PlcAddress("M", value as int - 3072))
    ensures 1536 <= value < 3072 ==> Resolve(Default, "0x", value) == Some(PlcAddress("Y", value as int - 1536))
    ensures value < 1536 ==> Resolve(Default, "0x", value).None?
  {
    DefaultWellFormed();
  }

  /** Prefix `1x`: X for every non-negative value, nothing for a negative one. */
  lemma ResolveInputs(value: Int32)
    ensures value >= 0 ==> Resolve(Default, "1x", value) == Some(PlcAddress("X", value))
    ensures value < 0 ==> Resolve(Default, "1x", value).None?
  {
    DefaultWellFormed();
  }

  /** Prefix `4x`: V for every value from 512 up, so T and C never win; below
      512 nothing, because every `4x` candidate's base offset exceeds the
      value (M's 3072 as well, even if its prefix were `4x`). */
  lemma ResolveRegisters(value: Int32)
    ensures value >= 512 ==> Resolve(Default, "4x", value) == Some(PlcAddress("V", value as int - 512))
    ensures value < 512 ==> Resolve(Default, "4x", value).None?
  {
    DefaultWellFormed();
  }

  /** No Modbus text ever converts to a timer or a counter address. */
  lemma NoTimerOrCounter(s: string)
    ensures ModbusToPlc(Default, s).Ok? ==>
              ModbusToPlc(Default, s).value.tag != "T" && ModbusToPlc(Default, s).value.tag != "C"
  {
    DefaultWellFormed();
    var r := ModbusToPlc(Default, s);
    if r.Ok? {
      var m := ParseModbus(s).value;
      assert Resolve(Default, m.prefix, m.value) == Some(r.value);
      if m.prefix == "0x" {
        ResolveCoils(m.value);
      } else if m.prefix == "1x" {
        ResolveInputs(m.value);
      } else if m.prefix == "4x" {
        ResolveRegisters(m.value);
      } else {
        UnknownPrefixFails(Default, m.prefix, m.value);
      }
    }
  }

  /** The offsets at which a tag survives the round trip: M, X and V at any
      non-negative offset that does not overflow, Y below 1536 (from there on
      M wins). */
  predicate RoundTrips(tag: string, offset: int) {
    || ((tag == "M" || tag == "X" || tag == "V") && 0 <= offset
        && offset + (if tag == "M" then 3072 else if tag == "V" then 512 else 0) <= MaxInt32)
    || (tag == "Y" && 0 <= offset < 1536)
  }

  /** On addresses: converting to Modbus and resolving the result gives the
      PLC address back. */
  lemma ToModbusThenResolve(tag: string, offset: Int32)
    requires RoundTrips(tag, offset)
    ensures ToModbus(Default, tag, offset).Ok?
    ensures var m := ToModbus(Default, tag, offset).value;
            && (m.prefix == "0x" || m.prefix == "1x" || m.prefix == "4x")
            && Resolve(Default, m.prefix, m.value) == Some(PlcAddress(tag, offset))
  {
    DefaultWellFormed();
    var m := ToModbus(Default, tag, offset).value;
    if tag == "M" {
      assert m == ModbusAddress("0x", offset + 3072);
      ResolveCoils(m.value);
    } else if tag == "Y" {
      assert m == ModbusAddress("0x", offset + 1536);
      ResolveCoils(m.value);
    } else if tag == "X" {
      assert m == ModbusAddress("1x", offset);
      ResolveInputs(m.value);
    } else {
      assert m == ModbusAddress("4x", offset + 512);
      ResolveRegisters(m.value);
    }
  }

  /** Conversely, the round trip on addresses holds only where `RoundTrips`
      says: a negative or overflowing offset, Y from 1536 on, T and C all come
      back as something else or not at all. */
  lemma ResolveThenToModbusOnly(tag: string, offset: Int32)
    requires ToModbus(Default, tag, offset).Ok?
    requires var m := ToModbus(Default, tag, offset).value;
             Resolve(Default, m.prefix, m.value) == Some(PlcAddress(tag, offset))
    ensures RoundTrips(tag, offset)
  {
    DefaultWellFormed();
    var m := ToModbus(Default, tag, offset).value;
    if m.prefix == "0x" {
      ResolveCoils(m.value);
    } else if m.prefix == "1x" {
      ResolveInputs(m.value);
    } else if m.prefix == "4x" {
      ResolveRegisters(m.value);
    } else {
      UnknownPrefixFails(Default, m.prefix, m.value);
    }
  }

  /** Where the Y and M ranges meet: output Y1536 prints as `0x 3072`, which
      is marker M0. */
  lemma OutputOverlapsMarker()
    ensures ToModbus(Default, "Y", 1536) == Ok(ModbusAddress("0x", 3072))
    ensures Resolve(Default, "0x", 3072) == Some(PlcAddress("M", 0))
    ensures !RoundTrips("Y", 1536)
  {
    ResolveCoils(3072);
  }

  /** On text: printing a PLC address as Modbus text and converting the text
      back recovers the address, wherever the tag round-trips. */
  lemma RoundTrip(tag: string, offset: Int32)
    requires RoundTrips(tag, offset)
    ensures PlcToModbus(Default, tag, IntToString(offset)).Ok?
    ensures ModbusToPlc(Default, FormatModbus(PlcToModbus(Default, tag, IntToString(offset)).value))
            == Ok(PlcAddress(tag, offset))
  {
    ParseIntOfIntToString(offset);
    assert PlcToModbus(Default, tag, IntToString(offset)) == ToModbus(Default, tag, offset);
    ToModbusThenResolve(tag, offset);
    var m := ToModbus(Default, tag, offset).value;
    PlainPrefix(tag);
    ParseFormatModbus(m);
    assert ModbusToPlc(Default, FormatModbus(m)) == Ok(PlcAddress(tag, offset));
  }

  /** The prefixes of the default table are single tokens without white space. */
  lemma PlainPrefix(tag: string)
    requires tag in Default.prefixes
    ensures var p := Default.prefixes[tag];
            |p| > 0 && forall i :: 0 <= i < |p| ==> p[i] !in WhiteSpace
  {
    var p := Default.prefixes[tag];
    assert p == "0x" || p == "1x" || p == "4x";
  }

  /** Timers and counters never survive the round trip: their Modbus text
      converts to something else or not at all. */
  lemma TimerCounterRoundTripFails(tag: string, offset: Int32)
    requires tag == "T" || tag == "C"
    ensures PlcToModbus(Default, tag, IntToString(offset)).Ok?
    ensures ModbusToPlc(Default, FormatModbus(PlcToModbus(Default, tag, IntToString(offset)).value))
            != Ok(PlcAddress(tag, offset))
  {
    ParseIntOfIntToString(offset);
    NoTimerOrCounter(FormatModbus(PlcToModbus(Default, tag, IntToString(offset)).value));
  }

  /** The other direction on addresses: whatever a Modbus address resolves
      to converts back to that very Modbus address. */
  lemma ResolveThenToModbus(prefix: string, value: Int32)
    requires Resolve(Default, prefix, value).Some?
    ensures var a := Resolve(Default, prefix, value).value;
            ToModbus(Default, a.tag, a.offset) == Ok(ModbusAddress(prefix, value))
  {
    DefaultWellFormed();
    var a := Resolve(Default, prefix, value).value;
    if prefix == "0x" {
      ResolveCoils(value);
    } else if prefix == "1x" {
      ResolveInputs(value);
    } else if prefix == "4x" {
      ResolveRegisters(value);
    } else {
      UnknownPrefixFails(Default, prefix, value);
      assert false;
    }
    assert a.offset + Default.offsets[a.tag] == value;
  }

  /** The other direction on text: whatever Modbus text converts, converting
      the PLC address back yields the Modbus address that was read. */
  lemma ReverseRoundTrip(s: string)
    requires ModbusToPlc(Default, s).Ok?
    ensures ParseModbus(s).Ok?
    ensures PlcToModbus(Default, ModbusToPlc(Default, s).value.tag,
                        IntToString(ModbusToPlc(Default, s).value.offset))
            == Ok(ParseModbus(s).value)
  {
    DefaultWellFormed();
    var m := ParseModbus(s).value;
    var a := ModbusToPlc(Default, s).value;
    assert Resolve(Default, m.prefix, m.value) == Some(a);
    ParseIntOfIntToString(a.offset);
    ResolveThenToModbus(m.prefix, m.value);
  }

  /** Under the default offsets M's prefix does not matter to the `4x`
      dispatch: with M's prefix changed to `4x`, M's branch is on, but V
      already takes every value M's base could admit, so every `4x` value
      resolves exactly as before. */
  lemma MarkerPrefixIrrelevant(value: Int32)
    ensures var t := Table(Default.offsets, Default.prefixes["M" := "4x"]);
            HasCoreTags(t) && Candidates(t, "4x") == ["V", "T", "C", "M"]
            && Resolve(t, "4x", value) == Resolve(Default, "4x", value)
  {
    DefaultWellFormed();
    var t := Table(Default.offsets, Default.prefixes["M" := "4x"]);
    assert t.prefixes["M"] == "4x";
    ResolveRegisters(value);
  }
}

=== FILE: scenarios.dfy ===
/**
 Worked conversions with the default table, including the error paths and
 the Int32 wrap-around of the PLC-to-Modbus sum.
 */
module Scenarios {
  import opened BoundedInt
  import opened Wrappers
  import opened Text
  import opened AddressTable
  import opened Converter
  import opened DefaultTable

  /** The register-class prefixes the scenarios print are single tokens
      without white space, so the printed text is already trimmed. */
  lemma Unspaced(p: string)
    requires p == "0x" || p == "4x"
    ensures |p| > 0 && forall i :: 0 <= i < |p| ==> p[i] !in WhiteSpace
  {
  }

  // Decimal spellings of the numbers the scenarios use.

  lemma Spells400()
    ensures IntToString(400) == "400"
  {
    assert DigitsOf(4) == "4";
    assert DigitsOf(40) == "40";
    assert DigitsOf(400) == "400";
  }

  lemma Spells912()
    ensures IntToString(912) == "912"
  {
    assert DigitsOf(9) == "9";
    assert DigitsOf(91) == "91";
    assert DigitsOf(912) == "912";
  }

  lemma Spells15500()
    ensures IntToString(15500) == "15500"
  {
    assert DigitsOf(1) == "1";
    assert DigitsOf(15) == "15";
    assert DigitsOf(155) == "155";
    assert DigitsOf(1550) == "1550";
    assert DigitsOf(15500) == "15500";
  }

  lemma Spells3500()
    ensures IntToString(3500) == "3500"
  {
    assert DigitsOf(3) == "3";
    assert DigitsOf(35) == "35";
    assert DigitsOf(350) == "350";
    assert DigitsOf(3500) == "3500";
  }

  lemma Spells10()
    ensures IntToString(10) == "10"
  {
    assert DigitsOf(1) == "1";
    assert DigitsOf(10) == "10";
  }

  lemma Spells100()
    ensures IntToString(100) == "100"
  {
    assert DigitsOf(1) == "1";
    assert DigitsOf(10) == "10";
    assert DigitsOf(100) == "100";
  }

  lemma Spells5()
    ensures IntToString(5) == "5"
  {
    assert DigitsOf(5) == "5";
  }

  /** V400 is Modbus register `4x 912`. */
  lemma RegisterToModbus()
    ensures PlcToModbus(Default, "V", "400") == Ok(ModbusAddress("4x", 912))
    ensures FormatModbus(ModbusAddress("4x", 912)) == "4x 912"
  {
    assert ParseInt("400") == Some(400) by {
      Spells400();
      ParseIntOfIntToString(400);
    }
    Spells912();
  }

  /** `4x 912` converts back to V400. */
  lemma RegisterFromModbus()
    ensures ModbusToPlc(Default, "4x 912") == Ok(PlcAddress("V", 400))
  {
    var m := ModbusAddress("4x", 912);
    assert FormatModbus(m) == "4x 912" by { Spells912(); }
    assert Resolve(Default, "4x", 912) == Some(PlcAddress("V", 400)) by { ResolveRegisters(912); }
    assert ModbusToPlc(Default, FormatModbus(m)) == Ok(PlcAddress("V", 400)) by {
      DefaultWellFormed();
      Unspaced("4x");
      ModbusToPlcOfFormat(Default, m);
    }
  }

  /** The PLC address prints as `V400`. */
  lemma RegisterPrints()
    ensures FormatPlc(PlcAddress("V", 400)) == "V400"
  {
    Spells400();
    assert "V" + "400" == "V400";
  }

  /** `4x 15500` lies in the timer range, but V is tried first and wins. */
  lemma TimerRangeGoesToRegisters()
    ensures ModbusToPlc(Default, "4x 15500") == Ok(PlcAddress("V", 14988))
  {
    var m := ModbusAddress("4x", 15500);
    assert FormatModbus(m) == "4x 15500" by { Spells15500(); }
    assert Resolve(Default, "4x", 15500) == Some(PlcAddress("V", 14988)) by { ResolveRegisters(15500); }
    assert ModbusToPlc(Default, FormatModbus(m)) == Ok(PlcAddress("V", 14988)) by {
      DefaultWellFormed();
      Unspaced("4x");
      ModbusToPlcOfFormat(Default, m);
    }
  }

  /** `0x 3500` is at or above both bases; M is tried first and wins. */
  lemma CoilRangeGoesToMarkers()
    ensures ModbusToPlc(Default, "0x 3500") == Ok(PlcAddress("M", 428))
  {
    var m := ModbusAddress("0x", 3500);
    assert FormatModbus(m) == "0x 3500" by { Spells3500(); }
    assert Resolve(Default, "0x", 3500) == Some(PlcAddress("M", 428)) by { ResolveCoils(3500); }
    assert ModbusToPlc(Default, FormatModbus(m)) == Ok(PlcAddress("M", 428)) by {
      DefaultWellFormed();
      Unspaced("0x");
      ModbusToPlcOfFormat(Default, m);
    }
  }

  /** An unknown prefix fails, and the error carries the text and the prefix. */
  lemma UnknownPrefixText()
    ensures ModbusToPlc(Default, "9x 10") == Err(NoMatchingMemoryType("9x 10", "9x"))
  {
    var m := ModbusAddress("9x", 10);
    assert FormatModbus(m) == "9x 10" by { Spells10(); }
    assert Resolve(Default, "9x", 10).None? by {
      DefaultWellFormed();
      UnknownPrefixFails(Default, "9x", 10);
    }
    assert ModbusToPlc(Default, FormatModbus(m)) == Err(NoMatchingMemoryType(FormatModbus(m), "9x")) by {
      DefaultWellFormed();
      assert "9x"[0] !in WhiteSpace && "9x"[1] !in WhiteSpace;
      ModbusToPlcOfFormat(Default, m);
    }
  }

  /** Below V's base a `4x` value fails: every `4x` candidate's base offset
      exceeds it, M's 3072 included. */
  lemma LowRegisterFails()
    ensures ModbusToPlc(Default, "4x 100") == Err(NoMatchingMemoryType("4x 100", "4x"))
  {
    var m := ModbusAddress("4x", 100);
    assert FormatModbus(m) == "4x 100" by { Spells100(); }
    assert Resolve(Default, "4x", 100).None? by { ResolveRegisters(100); }
    assert ModbusToPlc(Default, FormatModbus(m)) == Err(NoMatchingMemoryType(FormatModbus(m), "4x")) by {
      DefaultWellFormed();
      Unspaced("4x");
      ModbusToPlcOfFormat(Default, m);
    }
  }

  /** A tag outside the table is refused. */
  lemma UnknownTag()
    ensures PlcToModbus(Default, "Z", "5") == Err(UnknownMemoryType)
  {
    assert ParseInt("5") == Some(5) by {
      Spells5();
      ParseIntOfIntToString(5);
    }
  }

  /** A negative PLC address is accepted and shifted like any other. */
  lemma NegativeAddress()
    ensures PlcToModbus(Default, "X", "-5") == Ok(ModbusAddress("1x", -5))
  {
    assert ParseInt("-5") == Some(-5) by {
      Spells5();
      assert IntToString(-5) == "-5";
      ParseIntOfIntToString(-5);
    }
  }

  /** A non-numeric address is refused before the tag is looked at. */
  lemma NonNumericAddress()
    ensures PlcToModbus(Default, "Z", "12a") == Err(InvalidAddress)
  {
  }

  /** The largest M address overflows: the sum wraps to a negative Modbus
      value. */
  lemma MarkerOverflowWraps()
    ensures ToModbus(Default, "M", MaxInt32) == Ok(ModbusAddress("0x", -2147480577))
  {
  }

  /** Blank text is refused as empty. */
  lemma BlankInput()
    ensures ModbusToPlc(Default, " \t ") == Err(EmptyInput)
  {
    assert ParseModbus(" \t ") == Err(EmptyInput) by {
      assert Trim(" \t ", WhiteSpace) == [];
    }
    DefaultWellFormed();
  }

  /** Two spaces make three pieces: the text is refused as malformed. */
  lemma DoubleSpace()
    ensures ModbusToPlc(Default, "4x  912") == Err(MalformedInput)
  {
    DoubleSpaceParse();
    DefaultWellFormed();
  }

  lemma DoubleSpaceParse()
    ensures ParseModbus("4x  912") == Err(MalformedInput)
  {
    var s := "4x  912";
    TrimUntrimmed(s, WhiteSpace);
    assert multiset(s)[' '] == 2 by { assert s == "4x" + " " + " " + "912"; }
  }

  /** A second token that is not a number is refused. */
  lemma NonNumericRegister()
    ensures ModbusToPlc(Default, "4x 9a") == Err(InvalidModbusNumber)
  {
    NonNumericRegisterParse();
    DefaultWellFormed();
  }

  lemma NonNumericRegisterParse()
    ensures ParseModbus("4x 9a") == Err(InvalidModbusNumber)
  {
    var s := "4x 9a";
    TrimUntrimmed(s, WhiteSpace);
    assert Join(["4x", "9a"], ' ') == s;
    SplitJoin(["4x", "9a"], ' ');
    assert ParseInt("9a").None?;
  }
}

=== FILE: text.dfy ===
/**
 The .NET string primitives the converter relies on: `string.Trim()`,
 `string.Split(' ')`, `int.TryParse` and the decimal formatting of `int` in
 string interpolation, over strings as sequences of Unicode scalar values.
 */
module Text {
  import opened BoundedInt
  import opened Wrappers

  /** Characters for which .NET's `Char.IsWhiteSpace` holds (the Unicode
      White_Space property); `string.Trim()` strips these from both ends. */
  const WhiteSpace: set<char> :=
    {'\t', '\n', '\U{0B}', '\U{0C}', '\r', ' ', '\U{85}', '\U{A0}', '\U{1680}',
     '\U{2000}', '\U{2001}', '\U{2002}', '\U{2003}', '\U{2004}', '\U{2005}',
     '\U{2006}', '\U{2007}', '\U{2008}', '\U{2009}', '\U{200A}',
     '\U{2028}', '\U{2029}', '\U{202F}', '\U{205F}', '\U{3000}'}

  /** The white space `int.TryParse` skips before and after the number
      (NumberStyles.AllowLeadingWhite and AllowTrailingWhite). */
  const NumberWhite: set<char> := {'\t', '\n', '\U{0B}', '\U{0C}', '\r', ' '}

  // ---------------------------------------------------------------- trimming

  /** The number of leading characters of `s` that are in `ws`. */
  function LeadCount(s: string, ws: set<char>): (n: nat)
    ensures n <= |s|
    ensures forall i :: 0 <= i < n ==> s[i] in ws
    ensures n < |s| ==> s[n] !in ws
  {
    if |s| > 0 && s[0] in ws then
      var n := LeadCount(s[1..], ws);
      assert forall i :: 1 <= i < n + 1 ==> s[i] == s[1..][i - 1];
      n + 1
    else 0
  }

  /** The number of trailing characters of `s` that are in `ws`. */
  function TrailCount(s: string, ws: set<char>): (n: nat)
    ensures n <= |s|
    ensures forall i :: |s| - n <= i < |s| ==> s[i] in ws
    ensures n < |s| ==> s[|s| - 1 - n] !in ws
  {
    if |s| > 0 && s[|s| - 1] in ws then
      var n := TrailCount(s[..|s| - 1], ws);
      assert forall i :: |s| - 1 - n <= i < |s| - 1 ==> s[i] == s[..|s| - 1][i];
      n + 1
    else 0
  }

  /** `s` with every leading and trailing character of `ws` removed: the
      result is a slice of `s`, everything cut away is in `ws`, and the
      result neither begins nor ends with a character of `ws`. */
  function Trim(s: string, ws: set<char>): (r: string)
    ensures var k := LeadCount(s, ws);
              && k + |r| <= |s| && r == s[k..k + |r|]
              && (forall i :: 0 <= i < k ==> s[i] in ws)
              && (forall i :: k + |r| <= i < |s| ==> s[i] in ws)
    ensures |r| > 0 ==> r[0] !in ws && r[|r| - 1] !in ws
    ensures r == [] <==> forall i :: 0 <= i < |s| ==> s[i] in ws
  {
    var a := LeadCount(s, ws);
    if a == |s| then []
    else
      var b := TrailCount(s, ws);
      assert a + b < |s|;
      s[a..|s| - b]
  }

  /** Trimming leaves a string alone whose ends are not white. */
  lemma TrimUntrimmed(s: string, ws: set<char>)
    requires |s| > 0 && s[0] !in ws && s[|s| - 1] !in ws
    ensures Trim(s, ws) == s
  {
    var r := Trim(s, ws);
    assert LeadCount(s, ws) == 0;
    assert |r| == |s|;
  }

  // ---------------------------------------------------------------- splitting

  /** The position of the first occurrence of `c` in `s`. */
  function IndexOf(s: string, c: char): (i: nat)
    requires c in s
    ensures i < |s| && s[i] == c && c !in s[..i]
  {
    if s[0] == c then 0
    else
      var j := IndexOf(s[1..], c);
      assert s[..j + 1] == [s[0]] + s[1..][..j];
      j + 1
  }

  /** The pieces joined back together with `sep` between neighbours. */
  function Join(parts: seq<string>, sep: char): string
    requires |parts| > 0
  {
    if |parts| == 1 then parts[0] else parts[0] + [sep] + Join(parts[1..], sep)
  }

  /** `string.Split(sep)`: every maximal run between separators, empty runs
      included, so there is always at least one piece. */
  function Split(s: string, sep: char): (parts: seq<string>)
    ensures |parts| > 0
    ensures forall k :: 0 <= k < |parts| ==> sep !in parts[k]
    ensures Join(parts, sep) == s
    decreases |s|
  {
    if sep !in s then [s]
    else
      var i := IndexOf(s, sep);
      var rest := Split(s[i + 1..], sep);
      var parts := [s[..i]] + rest;
      assert parts[1..] == rest;
      assert s == s[..i] + [sep] + s[i + 1..];
      parts
  }

  /** Splitting undoes joining separator-free pieces: the pieces Split returns
      are the only ones with its contract. */
  lemma {:induction false} SplitJoin(parts: seq<string>, sep: char)
    requires |parts| > 0
    requires forall k :: 0 <= k < |parts| ==> sep !in parts[k]
    ensures Split(Join(parts, sep), sep) == parts
    decreases |parts|
  {
    var s := Join(parts, sep);
    if |parts| == 1 {
    } else {
      var tail := Join(parts[1..], sep);
      assert s == parts[0] + [sep] + tail;
      assert sep in s by { assert s[|parts[0]|] == sep; }
      var i := IndexOf(s, sep);
      assert i == |parts[0]|;
      assert s[..i] == parts[0];
      assert s[i + 1..] == tail;
      SplitJoin(parts[1..], sep);
    }
  }

  /** The number of pieces is one more than the number of separators. */
  lemma {:induction false} SplitCount(s: string, sep: char)
    ensures |Split(s, sep)| == multiset(s)[sep] + 1
    decreases |s|
  {
    if sep !in s {
    } else {
      var i := IndexOf(s, sep);
      assert s == s[..i] + [sep] + s[i + 1..];
      assert multiset(s) == multiset(s[..i]) + multiset{sep} + multiset(s[i + 1..]);
      SplitCount(s[i + 1..], sep);
    }
  }

  // ---------------------------------------------------------------- integers

  predicate IsDigit(c: char) {
    '0' <= c <= '9'
  }

  predicate AllDigits(s: string) {
    forall i :: 0 <= i < |s| ==> IsDigit(s[i])
  }

  function DigitValue(c: char): nat
    requires IsDigit(c)
  {
    c as int - '0' as int
  }

  function DigitChar(d: nat): char
    requires d < 10
  {
    (d + '0' as int) as char
  }

  /** The number a string of decimal digits denotes. */
  function ValueOfDigits(s: string): nat
    requires AllDigits(s)
  {
    if |s| == 0 then 0 else ValueOfDigits(s[..|s| - 1]) * 10 + DigitValue(s[|s| - 1])
  }

  /** The shortest decimal spelling of `n`. */
  function DigitsOf(n: nat): (s: string)
    ensures |s| > 0 && AllDigits(s)
    ensures ValueOfDigits(s) == n
    ensures |s| > 1 ==> s[0] != '0'
  {
    if n < 10 then [DigitChar(n)]
    else
      var s := DigitsOf(n / 10) + [DigitChar(n % 10)];
      assert s[..|s| - 1] == DigitsOf(n / 10);
      s
  }

  /** An `int` formatted as decimal text, as string interpolation does with
      a culture whose negative sign is `-`: a minus sign for negative values,
      then the digits without leading zeros. */
  function IntToString(n: int): (s: string)
    ensures |s| > 0
    ensures s[0] == '-' <==> n < 0
    ensures forall i :: 0 < i < |s| ==> IsDigit(s[i])
    ensures IsDigit(s[0]) || s[0] == '-'
  {
    if n < 0 then "-" + DigitsOf(-n) else DigitsOf(n)
  }

  /** The value of an optional sign followed by decimal digits, if the text
      has that shape: the digits after the sign denote the magnitude, and a
      minus sign negates it. */
  function ParseSigned(s: string): (r: Option<int>)
    ensures r.Some? ==> |s| > 0 && (IsDigit(s[0]) || s[0] == '-' || s[0] == '+') && AllDigits(s[1..])
    ensures r.Some? && r.value < 0 ==> s[0] == '-'
    ensures r.Some? && IsDigit(s[0]) ==> r.value == ValueOfDigits(s)
    ensures r.Some? && s[0] == '+' ==> |s| > 1 && r.value == ValueOfDigits(s[1..])
    ensures r.Some? && s[0] == '-' ==> |s| > 1 && r.value == -(ValueOfDigits(s[1..]) as int)
  {
    if |s| == 0 then None
    else
      var digits := if s[0] == '-' || s[0] == '+' then s[1..] else s;
      if |digits| == 0 || !AllDigits(digits) then None
      else if s[0] == '-' then Some(-(ValueOfDigits(digits) as int))
      else Some(ValueOfDigits(digits))
  }

  /** Every optional sign followed by a non-empty run of digits is accepted,
      leading zeros and a plus sign included, with the value the digits
      denote, negated after a minus sign. */
  lemma ParseSignedSignDigits(sign: string, d: string)
    requires sign == "" || sign == "+" || sign == "-"
    requires |d| > 0 && AllDigits(d)
    ensures ParseSigned(sign + d) == Some(if sign == "-" then -(ValueOfDigits(d) as int) else ValueOfDigits(d))
  {
    assert sign == "" ==> sign + d == d;
    assert sign != "" ==> (sign + d)[1..] == d;
  }

  /** `int.TryParse(s, out n)` with NumberStyles.Integer in the invariant
      culture: surrounding number white space, an optional sign, decimal
      digits, and a value that fits in an Int32; anything else fails. */
  function ParseInt(s: string): (r: Option<Int32>)
    ensures r.Some? ==> forall i :: 0 <= i < |s| ==>
                          IsDigit(s[i]) || s[i] == '-' || s[i] == '+' || s[i] in NumberWhite
  {
    var core := Trim(s, NumberWhite);
    match ParseSigned(core)
    case None => None
    case Some(n) =>
      if InInt32(n) then
        SignedCharacters(s, core);
        Some(n)
      else None
  }

  /** Every character of text whose trimmed core reads as a signed number is
      a digit, a sign or number white space. */
  lemma SignedCharacters(s: string, core: string)
    requires core == Trim(s, NumberWhite) && ParseSigned(core).Some?
    ensures forall i :: 0 <= i < |s| ==>
              IsDigit(s[i]) || s[i] == '-' || s[i] == '+' || s[i] in NumberWhite
  {
    var k := LeadCount(s, NumberWhite);
    forall i | 0 <= i < |s|
      ensures IsDigit(s[i]) || s[i] == '-' || s[i] == '+' || s[i] in NumberWhite
    {
      if k < i < k + |core| {
        assert s[i] == core[1..][i - k - 1];
      } else if i == k {
        assert s[i] == core[0];
      }
    }
  }

  /** The signed-number reader reads back every integer `IntToString` prints. */
  lemma ParseSignedOfIntToString(n: int)
    ensures ParseSigned(IntToString(n)) == Some(n)
  {
    var s := IntToString(n);
    if n < 0 {
      var d := DigitsOf(-n);
      assert s == "-" + d;
      assert s[1..] == d;
    } else {
      assert s == DigitsOf(n);
      assert IsDigit(s[0]);
    }
  }

  /** Parsing reads back every Int32 that `IntToString` prints. */
  lemma ParseIntOfIntToString(n: Int32)
    ensures ParseInt(IntToString(n)) == Some(n)
  {
    var s := IntToString(n);
    assert s[0] !in NumberWhite;
    assert s[|s| - 1] !in NumberWhite by {
      if |s| > 1 {
        assert IsDigit(s[|s| - 1]);
      } else {
        assert n >= 0;
      }
    }
    TrimUntrimmed(s, NumberWhite);
    ParseSignedOfIntToString(n);
  }
}

=== FILE: wrappers.dfy ===
/**
 The optional value shared by the text primitives and the Modbus dispatch.
 */
module Wrappers {
  datatype Option<+T> = None | Some(value: T)
}
